=== FILE: README.md ===
# BeatBox playback service, modelled in Dafny

BeatBox is an Android local-media player. Its background `MusicPlayerService`
owns the playback queue: a track list, the index of the bound track (-1 when
none is bound) and at most one `MediaPlayer`. It reacts to start commands
(PLAY with an optional list and start index, PAUSE, NEXT, PREV) and to the
player's prepared, completion and error listeners, and shows the bound track
in a foreground notification with Previous, Play/Pause and Next buttons.

The model has these parts:

- `wrappers.dfy` holds `Option`, which stands for Kotlin's nullable types.
- `media.dfy` holds tracks, the player, command intents and the command names.
  A player is abstracted to its instance identity (instances are numbered in
  creation order) and its `isPlaying` bit.
- `queue_index.dfy` holds the next/previous index arithmetic. It uses
  Kotlin's truncating `%` and proves the wrap-around laws.
- `notification.dfy` holds the pure projection of the state into notification
  content (title, text, ongoing, buttons).
- `playback.dfy` holds the state machine as functions from the state before a
  command or callback to the state after. Their contracts and the lemmas beside
  them state the behaviour.
  The state also records which player instances are constructed and not yet
  released (`live`). This makes "the old player is released before a new one
  is created, so at most one exists" an invariant that has to be proved.
  `stopSelf()` becomes a `stopped` flag. The notification last posted with
  `startForeground` is kept as `shown`.
- `service.dfy` holds the class `MusicPlayerService`. Its fields are updated
  step by step, as in the source. Each method is proved to produce exactly the
  state of the matching `Playback` function, and to keep the invariant.

The index is deliberately not assumed to lie within the list. A PLAY that
supplies a new list keeps the old index, so the index may point past the end of
a shorter list. When it is more than one past the end, `prevTrack` moves it
back by one, still out of range, and the guard in `playCurrentTrack` refuses it;
exactly one past the end, it moves to the last track, which plays. The code defends only at that
guard and at the one in `updateNotification`. The model has the same two
guards and nothing more.

The code has none of the following, and the model adds none:

- an epoch or generation guard that discards callbacks of a superseded player;
- a "restart the current track after 3 seconds" rule for previous;
- a STOP command: a request with an undeclared action, such as `ACTION_STOP`,
  or with the declared but unhandled `ACTION_SET_TRACK`, changes nothing;
- a "last played" record written by the service.

A player error resets the player and requests a stop, and the player stays
bound. It is released by the next command that reaches `playCurrentTrack`,
which releases the bound player before creating a new one (:130-131), or else
by `onDestroy`.

## Model

| member | source | states |
|---|---|---|
| `QueueIndex.Rem` | app/src/main/java/com/example/beatbox/services/MusicPlayerService.kt:192 | Kotlin's `%`: the remainder is smaller than the divisor in size, has the dividend's sign, and the dividend minus it is a multiple of the divisor |
| `QueueIndex.NextIndex` | app/src/main/java/com/example/beatbox/services/MusicPlayerService.kt:192 | next index on a non-empty list: from any index >= -1 it lands in [0, n); i+1 below the end; wraps n-1 to 0; -1 goes to 0 |
| `QueueIndex.PrevIndex` | app/src/main/java/com/example/beatbox/services/MusicPlayerService.kt:203 | previous index: i-1 when i > 0, n-1 otherwise; in [0, n) for i <= n, still out of range for a stale i > n |
| `QueueIndex.NextPrevInverse` | app/src/main/java/com/example/beatbox/services/MusicPlayerService.kt:187-206 | on a bound index, previous undoes next and next undoes previous |
| `QueueIndex.AdvanceIsShift` | app/src/main/java/com/example/beatbox/services/MusicPlayerService.kt:192 | k next steps from a bound index i reach (i + k) mod n |
| `QueueIndex.RetreatIsShift` | app/src/main/java/com/example/beatbox/services/MusicPlayerService.kt:203 | k previous steps from a bound index i reach (i - k) mod n |
| `QueueIndex.FullCycle` | app/src/main/java/com/example/beatbox/services/MusicPlayerService.kt:187-206 | n next steps, or n previous steps, return to the starting index |
| `Notification.Project` | app/src/main/java/com/example/beatbox/services/MusicPlayerService.kt:209-253 | nothing when the index is out of range; otherwise title "BeatBox", text "name - artist" of the bound track, ongoing iff playing, buttons Previous / toggle / Next, toggle sends PAUSE iff playing and PLAY iff not |
| `Notification.ProjectSeesOnlyBoundTrack` | app/src/main/java/com/example/beatbox/services/MusicPlayerService.kt:216-218 | the content depends only on the bound track and the playing bit |
| `Playback.UpdateNotification` | app/src/main/java/com/example/beatbox/services/MusicPlayerService.kt:209-263 | posts the projection when the index is bound, leaves the state untouched when it is not, and never changes anything but the posted notification |
| `Playback.Release` | app/src/main/java/com/example/beatbox/services/MusicPlayerService.kt:129-132 | the bound player, if any, is released and unbound; nothing else changes; from a consistent state no unreleased instance remains |
| `Playback.Construct` | app/src/main/java/com/example/beatbox/services/MusicPlayerService.kt:136 | a new not-yet-playing instance is bound under the id counter's value, which the counter then passes and which from a consistent state no unreleased instance holds; only the player, the instance set and the id counter change; after a release it is the only unreleased instance, without one there are two |
| `Playback.PlayCurrentTrack` | app/src/main/java/com/example/beatbox/services/MusicPlayerService.kt:117-171 | out-of-range index: only a stop request, no player created; otherwise the old player is released, a new not-yet-playing one is bound and shown, or on a setup exception no player remains, the shown notification is kept, one id is used up and a stop is requested; keeps the single-instance invariant |
| `Playback.PlayCurrentTrackAsWritten` | app/src/main/java/com/example/beatbox/services/MusicPlayerService.kt:128-171 | the code as written: on a setup exception no player is bound but the constructed instance stays unreleased |
| `Playback.SetupFailureLeaksPlayer` | app/src/main/java/com/example/beatbox/services/MusicPlayerService.kt:136-170 | from any consistent state with a bound index, the as-written failure path leaves exactly one unreleased instance that nothing holds, breaking the invariant |
| `Playback.PausePlayback` | app/src/main/java/com/example/beatbox/services/MusicPlayerService.kt:175-185 | no change unless playing; otherwise the same player stops playing and nothing but the notification changes; when the index is bound the notification is reposted and shows Play, not ongoing; otherwise the old notification stays |
| `Playback.NextTrack` | app/src/main/java/com/example/beatbox/services/MusicPlayerService.kt:187-195 | empty list: no change; otherwise the index becomes NextIndex, lands in range and the state is exactly that of playing the track there: a fresh player starts and is shown (or setup fails and the service stops) |
| `Playback.PrevTrack` | app/src/main/java/com/example/beatbox/services/MusicPlayerService.kt:197-206 | empty list: no change; otherwise the index becomes PrevIndex; the state is exactly that of playing the track there; from any index up to one past the end it lands in range and a fresh player starts; a stale index more than one past the end moves back by one and is refused with a stop |
| `Playback.OnStartCommand` | app/src/main/java/com/example/beatbox/services/MusicPlayerService.kt:46-115 | PLAY: no list and none stored stops; a start index in range binds it and the state is exactly that of playing that track (always a fresh player); any other index except -1 stops with index and player kept; -1 resumes a paused bound player in place (same list, index and instance, notification reposted when the index is bound), or else plays track 0 exactly as `PlayCurrentTrack` does, or stops; PAUSE/NEXT/PREV dispatch; other actions change nothing; the invariant is kept |
| `Playback.OnPrepared` | app/src/main/java/com/example/beatbox/services/MusicPlayerService.kt:139-143 | the bound player starts playing and nothing but the notification changes; when the index is bound the notification is reposted, ongoing and offering Pause; otherwise the old notification stays |
| `Playback.OnCompletion` | app/src/main/java/com/example/beatbox/services/MusicPlayerService.kt:144-148 | behaves exactly as NEXT; on an empty list only the playing bit drops |
| `Playback.OnError` | app/src/main/java/com/example/beatbox/services/MusicPlayerService.kt:149-157 | the player is kept but not playing and a stop is requested; index and list are unchanged, so no retry and no skip |
| `Playback.OnDestroy` | app/src/main/java/com/example/beatbox/services/MusicPlayerService.kt:283-288 | exactly the release step of `playCurrentTrack`: the player is released and nothing else changes |
| `Playback.PrevUndoesNext` | app/src/main/java/com/example/beatbox/services/MusicPlayerService.kt:187-206 | on a bound index, PREV after NEXT (and NEXT after PREV) restores the index, whatever the setup outcomes |
| `Playback.NextTimesIndex` | app/src/main/java/com/example/beatbox/services/MusicPlayerService.kt:187-195 | k NEXT commands keep the list and move the index by k next steps |
| `Playback.QueueLoops` | app/src/main/java/com/example/beatbox/services/MusicPlayerService.kt:187-195 | as many NEXT commands as there are tracks return to the same track |
| `Playback.PauseIdempotent` | app/src/main/java/com/example/beatbox/services/MusicPlayerService.kt:175-185 | pausing twice is pausing once |
| `Playback.ToggleFlipsPlaying` | app/src/main/java/com/example/beatbox/services/MusicPlayerService.kt:223-226 | the notification's Play/Pause button flips the playing bit of the same player; the list, the index, the unreleased instances and the stop flag are kept, and the notification is reposted for the new playing bit |
| `Playback.UndeclaredActionIgnored` | app/src/main/java/com/example/beatbox/services/MusicPlayerService.kt:106-111 | a request with action `ACTION_STOP` or `ACTION_SET_TRACK` changes nothing and returns START_STICKY |
| `Playback.Step` | app/src/main/java/com/example/beatbox/services/MusicPlayerService.kt:46-157 | every command and every callback of the bound player keeps the invariant, with the corrected setup-failure path of `Playback.PlayCurrentTrack` (see Findings) |
| `Playback.InitialConsistent` | app/src/main/java/com/example/beatbox/services/MusicPlayerService.kt:22-26 | a fresh service (empty list, index -1, no player, no instance) satisfies the single-instance invariant |
| `Playback.AtMostOnePlayer` | app/src/main/java/com/example/beatbox/services/MusicPlayerService.kt:128-136 | on every run of commands and callbacks from a consistent state, a fresh service among them (`Playback.InitialConsistent`), at most one player instance is unreleased, with the corrected setup-failure path of `Playback.PlayCurrentTrack`; the code as written breaks it (`Playback.SetupFailureLeaksPlayer`) |
| `Service.MusicPlayerService.constructor` | app/src/main/java/com/example/beatbox/services/MusicPlayerService.kt:22-26 | empty list, index -1, no player, consistent state |
| `Service.MusicPlayerService.OnStartCommand` | app/src/main/java/com/example/beatbox/services/MusicPlayerService.kt:46-115 | new state and returned mode are those of `Playback.OnStartCommand`; the invariant is kept |
| `Service.MusicPlayerService.ReleasePlayer` | app/src/main/java/com/example/beatbox/services/MusicPlayerService.kt:129-132 | the bound player is released and the field cleared |
| `Service.MusicPlayerService.PlayCurrentTrack` | app/src/main/java/com/example/beatbox/services/MusicPlayerService.kt:117-171 | new state is that of `Playback.PlayCurrentTrack`; the invariant is kept |
| `Service.MusicPlayerService.PausePlayback` | app/src/main/java/com/example/beatbox/services/MusicPlayerService.kt:175-185 | new state is that of `Playback.PausePlayback` |
| `Service.MusicPlayerService.NextTrack` | app/src/main/java/com/example/beatbox/services/MusicPlayerService.kt:187-195 | new state is that of `Playback.NextTrack` |
| `Service.MusicPlayerService.PrevTrack` | app/src/main/java/com/example/beatbox/services/MusicPlayerService.kt:197-206 | new state is that of `Playback.PrevTrack` |
| `Service.MusicPlayerService.UpdateNotification` | app/src/main/java/com/example/beatbox/services/MusicPlayerService.kt:209-263 | only the posted notification may change, to the projection of the state |
| `Service.MusicPlayerService.OnPrepared` | app/src/main/java/com/example/beatbox/services/MusicPlayerService.kt:139-143 | new state is that of `Playback.OnPrepared` |
| `Service.MusicPlayerService.OnCompletion` | app/src/main/java/com/example/beatbox/services/MusicPlayerService.kt:144-148 | new state is that of `Playback.OnCompletion` |
| `Service.MusicPlayerService.OnError` | app/src/main/java/com/example/beatbox/services/MusicPlayerService.kt:149-157 | new state is that of `Playback.OnError` |
| `Service.MusicPlayerService.OnDestroy` | app/src/main/java/com/example/beatbox/services/MusicPlayerService.kt:283-288 | new state is that of `Playback.OnDestroy` |

## Left out

- Notification channel creation (MusicPlayerService.kt:266-280), the building of `PendingIntent`s, icons, the compact-view style and the `startForeground` call are platform calls. The model keeps only the content that `startForeground` would post.
- Extracting the track list from the intent by SDK version (:52-57) is a platform call. The list arrives already extracted, or absent.
- MediaPlayer internals are not modelled: data sources, decoding, `prepareAsync`, and which calls are legal in which player state. Where `start()` is called on a player that is not yet prepared (the resume path), the model simply sets the playing bit. Exceptions from `stop()`/`release()` of the old player and from `toUri()` are not modelled. A setup exception is a parameter (`setupFails`) that stands for `setDataSource` or `prepareAsync` throwing.
- Asynchrony and threads: the listeners are methods that the environment may call at any point, one at a time. They are callable only while a player is bound, since released instances no longer call back. `OnCompletion` sets the playing bit to false before moving on, because a completed player no longer reports playing.
- `stopSelf()` is modelled only as a flag. The service lifecycle is not modelled: commands that arrive after a stop request are still handled, as the code handles them.
- Logging, `onBind` and `onCreate` do nothing the model could observe.
- Kotlin's 32-bit `Int` is modelled as an unbounded integer. The arithmetic is `currentTrackIndex + 1` and `% trackList.size` (:192), and `currentTrackIndex - 1` and `trackList.size - 1` (:203). Each works on a list size or on an index that is -1 or was at some point a position in a list, so none can wrap.
- The media scan, the list and player screens, deletion of tracks and the "last played" preferences are not part of this model. They are I/O and user-interface code outside the service.

## Findings

| source | as written | input that shows it | evidently intended | confidence | as-written member | corrected member |
|---|---|---|---|---|---|---|
| app/src/main/java/com/example/beatbox/services/MusicPlayerService.kt:136-170 | If `setDataSource` or `prepareAsync` throws inside `MediaPlayer().apply { }`, the new instance is never assigned to `mediaPlayer`, which is still null from :132. The catch block's `mediaPlayer?.release()` therefore does nothing, and the constructed player is left unreleased. | PLAY with a valid start index for a track whose URI the player cannot open (for example after the permission was revoked) | the catch releases the instance it constructed, so the only unreleased player is the bound one | medium, not executed | `Playback.SetupFailureLeaksPlayer` | `Playback.PlayCurrentTrack` |

The whole `Playback` machine uses the corrected behaviour: `OnStartCommand`,
`NextTrack`, `PrevTrack` and `OnCompletion` start tracks through the corrected
`Playback.PlayCurrentTrack`, so `Step`, `Run` and the lemmas about them
(`AtMostOnePlayer` among them) describe the corrected service. The class
`Service.MusicPlayerService` follows it too: its `PlayCurrentTrack` releases
the instance whose setup failed. On every other path the model does what the
code does.

=== FILE: media.dfy ===
/**
 * The values the playback service works with: tracks, the media-player
 * instance (abstracted to its identity and a playing bit), the command
 * intents it receives and its command names.
 */
module Media {
  import opened Wrappers

  // Command names declared in the service's companion object.
  const ACTION_PLAY: string := "ACTION_PLAY"
  const ACTION_PAUSE: string := "ACTION_PAUSE"
  const ACTION_NEXT: string := "ACTION_NEXT"
  const ACTION_PREV: string := "ACTION_PREV"
  /** Declared, but no branch of onStartCommand handles it. */
  const ACTION_SET_TRACK: string := "ACTION_SET_TRACK"

  /** "No track bound"; also the default of the start-index extra. */
  const NO_INDEX: int := -1

  /** A track as the media scan builds it: title, artist and content URI. */
  datatype Track = Track(name: string, artist: string, uri: string)

  /**
   * One MediaPlayer instance: `id` stands for its object identity (instances
   * are numbered in creation order), `playing` for what `isPlaying` reports.
   */
  datatype Player = Player(id: nat, playing: bool)

  /**
   * A start request: its action (absent when the intent or its action is
   * null), the EXTRA_TRACKS list and the EXTRA_TRACK_INDEX extra.
   */
  datatype Intent = Intent(action: Option<string>, tracks: Option<seq<Track>>, trackIndex: Option<int>)

  /** What onStartCommand returns: START_STICKY or START_NOT_STICKY. */
  datatype StartMode = Sticky | NotSticky

  /** `mediaPlayer?.isPlaying ?: false` */
  function IsPlaying(player: Option<Player>): bool
  {
    player.Some? && player.value.playing
  }

  /** `intent?.action` */
  function ActionOf(intent: Option<Intent>): Option<string>
  {
    if intent.Some? then intent.value.action else None
  }

  /** `getIntExtra(EXTRA_TRACK_INDEX, -1)` */
  function StartIndex(intent: Intent): int
  {
    match intent.trackIndex
    case Some(i) => i
    case None => NO_INDEX
  }
}

=== FILE: notification.dfy ===
/**
 * What the foreground notification shows for a given service state: the
 * state-to-content part of updateNotification. Channel creation, pending
 * intents, icons and posting are platform calls and are not modelled.
 */
module Notification {
  import opened Wrappers
  import opened Media

  const TITLE: string := "BeatBox"

  /** An action button: its caption and the command its intent carries. */
  datatype Button = Button(caption: string, command: string)

  /** Content of the media notification; `ongoing` means it resists dismissal. */
  datatype Content = Content(title: string, text: string, ongoing: bool, buttons: seq<Button>)

  /** The intent a button sends back to the service: its action and no extras. */
  function ButtonIntent(b: Button): Intent
  {
    Intent(Some(b.command), None, None)
  }

  /**
   * The notification for the track at `index`, or nothing when the index
   * does not designate a track of the list.
   */
  function Project(trackList: seq<Track>, index: int, player: Option<Player>): (c: Option<Content>)
    ensures c.Some? <==> 0 <= index < |trackList|
    ensures c.Some? ==> c.value.title == TITLE
    ensures c.Some? ==> c.value.text == trackList[index].name + " - " + trackList[index].artist
    ensures c.Some? ==> c.value.ongoing == IsPlaying(player)
    ensures c.Some? ==> |c.value.buttons| == 3
    ensures c.Some? ==> c.value.buttons[0].command == ACTION_PREV && c.value.buttons[2].command == ACTION_NEXT
    ensures c.Some? ==> (c.value.buttons[1].command == ACTION_PAUSE <==> IsPlaying(player))
    ensures c.Some? ==> (c.value.buttons[1].command == ACTION_PLAY <==> !IsPlaying(player))
  {
    if index < 0 || index >= |trackList| then None
    else
      var track := trackList[index];
      var playing := IsPlaying(player);
      var toggle := if playing then Button("Pause", ACTION_PAUSE) else Button("Play", ACTION_PLAY);
      Some(Content(TITLE, track.name + " - " + track.artist, playing,
                   [Button("Previous", ACTION_PREV), toggle, Button("Next", ACTION_NEXT)]))
  }

  /**
   * The content depends only on the bound track and on whether the player
   * is playing: other tracks of the list and the player's identity do not
   * show.
   */
  lemma ProjectSeesOnlyBoundTrack(l1: seq<Track>, i1: int, p1: Option<Player>,
                                  l2: seq<Track>, i2: int, p2: Option<Player>)
    requires 0 <= i1 < |l1| && 0 <= i2 < |l2|
    requires l1[i1] == l2[i2] && IsPlaying(p1) == IsPlaying(p2)
    ensures Project(l1, i1, p1) == Project(l2, i2, p2)
  {
  }
}

=== FILE: playback.dfy ===
/**
 * The playback-queue state machine of MusicPlayerService, as functions from
 * the service's state before a command or player callback to its state
 * after. The class in service.dfy is proved to implement each of them.
 */
module Playback {
  import opened Wrappers
  import opened Media
  import opened QueueIndex
  import opened Notification

  /**
   * The service's state: the queue (`trackList`), the bound position
   * (`index`, NO_INDEX when none), the bound player, whether stopSelf has
   * been requested, the notification last posted with startForeground, and
   * the bookkeeping of player instances: `live` holds the ids of instances
   * constructed and not yet released, `nextId` the id the next one gets.
   */
  datatype Session = Session(
    trackList: seq<Track>,
    index: int,
    player: Option<Player>,
    stopped: bool,
    shown: Option<Content>,
    live: set<nat>,
    nextId: nat)

  /** The state after onStartCommand together with the mode it returns. */
  datatype Outcome = Outcome(session: Session, mode: StartMode)

  /** A freshly created service: empty queue, nothing bound, no player. */
  const Initial: Session := Session([], NO_INDEX, None, false, None, {}, 0)

  /** The instance ids a player field holds on to. */
  function Held(player: Option<Player>): set<nat>
  {
    if player.Some? then {player.value.id} else {}
  }

  /**
   * What every reachable state satisfies: the index is never below
   * NO_INDEX, the only unreleased instance is the bound one (so at most one
   * exists), and it is older than any instance still to be created. The
   * index is NOT always within the list: a new list may replace the old one
   * without the index being reset.
   */
  predicate Invariant(s: Session)
  {
    && s.index >= NO_INDEX
    && s.live == Held(s.player)
    && (s.player.Some? ==> s.player.value.id < s.nextId)
  }

  /** The index designates a track of the list. */
  predicate InRange(s: Session)
  {
    0 <= s.index < |s.trackList|
  }

  /** `mediaPlayer?.stop(); mediaPlayer?.release(); mediaPlayer = null` */
  function Release(s: Session): (r: Session)
    ensures r.player == None && r.(player := s.player, live := s.live) == s
    ensures Invariant(s) ==> r.live == {} && Invariant(r)
  {
    s.(player := None, live := s.live - Held(s.player))
  }

  /** `mediaPlayer = MediaPlayer()`: a new, not yet playing instance. */
  function Construct(s: Session): (r: Session)
    ensures r.player.Some? && !r.player.value.playing
    ensures r.player.value.id == s.nextId && r.nextId == s.nextId + 1
    ensures Invariant(s) ==> r.player.value.id !in s.live
    ensures r.(player := s.player, live := s.live, nextId := s.nextId) == s
    ensures Invariant(s) && s.player.None? ==> Invariant(r) && r.live == {s.nextId}
    ensures Invariant(s) && s.player.Some? ==> |r.live| == 2
  {
    s.(player := Some(Player(s.nextId, false)), live := s.live + {s.nextId}, nextId := s.nextId + 1)
  }

  /**
   * After a track start, `r` holds a new player that is not yet playing,
   * or, when the player's setup threw, no player and a stop request.
   */
  predicate Restarted(s: Session, r: Session, setupFails: bool)
  {
    if setupFails then r.player == None && r.stopped
    else r.player == Some(Player(s.nextId, false)) && r.stopped == s.stopped
  }

  /** updateNotification: post the projection of the state, if there is one. */
  function UpdateNotification(s: Session): (r: Session)
    ensures r.(shown := s.shown) == s
    ensures InRange(s) ==> r.shown == Project(s.trackList, s.index, s.player)
    ensures !InRange(s) ==> r == s
  {
    var content := Project(s.trackList, s.index, s.player);
    if content.Some? then s.(shown := content) else s
  }

  /**
   * playCurrentTrack. An index outside the list only requests a stop.
   * Otherwise the previous player is released before the new one is
   * created; when the player's setup throws, the service stops with no
   * player, and the instance constructed before the exception is released
   * too (the code as written does not do this: see PlayCurrentTrackAsWritten).
   */
  function PlayCurrentTrack(s: Session, setupFails: bool): (r: Session)
    ensures r.trackList == s.trackList && r.index == s.index
    ensures !InRange(s) ==> r == s.(stopped := true)
    ensures InRange(s) ==> Restarted(s, r, setupFails)
    ensures InRange(s) && !setupFails ==>
      r.live == s.live - Held(s.player) + {s.nextId} && r.shown == Project(r.trackList, r.index, r.player)
    ensures InRange(s) && setupFails ==> r.live == s.live - Held(s.player) - {s.nextId}
    ensures InRange(s) && setupFails ==> r.shown == s.shown && r.nextId == s.nextId + 1
    ensures Invariant(s) ==> Invariant(r)
    ensures Invariant(s) && InRange(s) ==> r.live == Held(r.player) && |r.live| <= 1
  {
    if !InRange(s) then s.(stopped := true)
    else
      var created := Construct(Release(s));
      if setupFails then Release(created).(stopped := true)
      else UpdateNotification(created)
  }

  /**
   * playCurrentTrack as the code is written: when the setup inside
   * `MediaPlayer().apply { ... }` throws, the new instance has not been
   * assigned to the field yet, so the handler's release finds nothing to
   * release and the instance is left unreleased.
   */
  function PlayCurrentTrackAsWritten(s: Session, setupFails: bool): (r: Session)
    ensures !setupFails ==> r == PlayCurrentTrack(s, setupFails)
    ensures !InRange(s) ==> r == s.(stopped := true)
    ensures InRange(s) && setupFails ==> r.player == None && r.stopped && s.nextId in r.live
  {
    if !InRange(s) then s.(stopped := true)
    else
      var created := Construct(Release(s));
      if setupFails then created.(player := None, stopped := true)
      else UpdateNotification(created)
  }

  /** The as-written failure path breaks "only the bound instance is unreleased". */
  lemma SetupFailureLeaksPlayer(s: Session)
    requires Invariant(s) && InRange(s)
    ensures var r := PlayCurrentTrackAsWritten(s, true);
      r.player == None && r.live == {s.nextId} && !Invariant(r)
  {
  }

  /** pausePlayback: pauses a playing player, and does nothing otherwise. */
  function PausePlayback(s: Session): (r: Session)
    ensures !IsPlaying(s.player) ==> r == s
    ensures IsPlaying(s.player) ==>
      && r.player == Some(Player(s.player.value.id, false))
      && r.(player := s.player, shown := s.shown) == s
      && (InRange(s) ==> r.shown.Some? && !r.shown.value.ongoing && |r.shown.value.buttons| == 3 && r.shown.value.buttons[1].command == ACTION_PLAY)
    ensures IsPlaying(s.player) ==>
      r.shown == (if InRange(s) then Project(r.trackList, r.index, r.player) else s.shown)
    ensures Invariant(s) ==> Invariant(r)
  {
    if IsPlaying(s.player) then UpdateNotification(s.(player := Some(s.player.value.(playing := false))))
    else s
  }

  /** nextTrack: move one place forward, wrapping to the start, and play. */
  function NextTrack(s: Session, setupFails: bool): (r: Session)
    ensures |s.trackList| == 0 ==> r == s
    ensures |s.trackList| > 0 ==> r.trackList == s.trackList && r.index == NextIndex(s.index, |s.trackList|)
    ensures |s.trackList| > 0 ==> r == PlayCurrentTrack(s.(index := NextIndex(s.index, |s.trackList|)), setupFails)
    ensures |s.trackList| > 0 && s.index >= NO_INDEX ==> InRange(r) && Restarted(s, r, setupFails)
    ensures Invariant(s) ==> Invariant(r)
  {
    if |s.trackList| == 0 then s
    else PlayCurrentTrack(s.(index := NextIndex(s.index, |s.trackList|)), setupFails)
  }

  /**
   * prevTrack: move one place back, wrapping to the end, and play. A stale
   * index more than one past the end of a shorter new list moves back by
   * one and is then refused by playCurrentTrack's guard; one past the end
   * moves to the last track, which plays.
   */
  function PrevTrack(s: Session, setupFails: bool): (r: Session)
    ensures |s.trackList| == 0 ==> r == s
    ensures |s.trackList| > 0 ==> r.trackList == s.trackList && r.index == PrevIndex(s.index, |s.trackList|)
    ensures |s.trackList| > 0 ==> r == PlayCurrentTrack(s.(index := PrevIndex(s.index, |s.trackList|)), setupFails)
    ensures 0 < |s.trackList| && s.index <= |s.trackList| ==> InRange(r) && Restarted(s, r, setupFails)
    ensures 0 < |s.trackList| < s.index ==> r == s.(index := s.index - 1, stopped := true)
    ensures Invariant(s) ==> Invariant(r)
  {
    if |s.trackList| == 0 then s
    else PlayCurrentTrack(s.(index := PrevIndex(s.index, |s.trackList|)), setupFails)
  }

  /** A PLAY without a start index resumes the bound player in place when it is paused. */
  predicate Resumable(s: Session)
  {
    s.player.Some? && !s.player.value.playing && s.index != NO_INDEX
  }

  /** The list PLAY works on: the supplied one, or else the stored one. */
  function ListFor(s: Session, intent: Intent): seq<Track>
  {
    if intent.tracks.Some? then intent.tracks.value else s.trackList
  }

  /** A PLAY request that neither supplies a list nor finds a stored one. */
  predicate NothingToPlay(s: Session, intent: Intent)
  {
    intent.tracks.None? && |s.trackList| == 0
  }

  /**
   * onStartCommand. PLAY replaces the list when one is supplied and then
   * binds the start index, resumes in place, or falls back to the first
   * track; PAUSE, NEXT and PREV are dispatched; any other action, including
   * a stop request, changes nothing.
   */
  function OnStartCommand(s: Session, intent: Option<Intent>, setupFails: bool): (o: Outcome)
    // unrecognised actions
    ensures ActionOf(intent) !in {Some(ACTION_PLAY), Some(ACTION_PAUSE), Some(ACTION_NEXT), Some(ACTION_PREV)} ==>
      o == Outcome(s, Sticky)
    ensures ActionOf(intent) == Some(ACTION_PAUSE) ==> o == Outcome(PausePlayback(s), Sticky)
    ensures ActionOf(intent) == Some(ACTION_NEXT) ==> o == Outcome(NextTrack(s, setupFails), Sticky)
    ensures ActionOf(intent) == Some(ACTION_PREV) ==> o == Outcome(PrevTrack(s, setupFails), Sticky)
    // PLAY with no list supplied and none stored
    ensures ActionOf(intent) == Some(ACTION_PLAY) && NothingToPlay(s, intent.value) ==>
      o == Outcome(s.(stopped := true), NotSticky)
    // PLAY with a start index within the list: always a fresh player
    ensures ActionOf(intent) == Some(ACTION_PLAY) && !NothingToPlay(s, intent.value) &&
            0 <= StartIndex(intent.value) < |ListFor(s, intent.value)| ==>
      && o.mode == Sticky
      && o.session.trackList == ListFor(s, intent.value)
      && o.session.index == StartIndex(intent.value)
      && Restarted(s, o.session, setupFails)
      && o.session == PlayCurrentTrack(s.(trackList := ListFor(s, intent.value), index := StartIndex(intent.value)), setupFails)
    // PLAY with any other explicit start index: stop, index and player kept
    ensures ActionOf(intent) == Some(ACTION_PLAY) && !NothingToPlay(s, intent.value) &&
            StartIndex(intent.value) != NO_INDEX && !(0 <= StartIndex(intent.value) < |ListFor(s, intent.value)|) ==>
      o == Outcome(s.(trackList := ListFor(s, intent.value), stopped := true), NotSticky)
    // PLAY without a start index, paused player bound: resume in place
    ensures ActionOf(intent) == Some(ACTION_PLAY) && !NothingToPlay(s, intent.value) &&
            StartIndex(intent.value) == NO_INDEX && Resumable(s) ==>
      && o.mode == Sticky
      && o.session.player == Some(Player(s.player.value.id, true))
      && o.session.(shown := s.shown) == s.(trackList := ListFor(s, intent.value), player := o.session.player)
      && o.session.shown == (if InRange(o.session) then Project(o.session.trackList, o.session.index, o.session.player) else s.shown)
    // PLAY without a start index and nothing to resume: first track, or stop
    ensures ActionOf(intent) == Some(ACTION_PLAY) && !NothingToPlay(s, intent.value) &&
            StartIndex(intent.value) == NO_INDEX && !Resumable(s) && |ListFor(s, intent.value)| > 0 ==>
      && o.mode == Sticky
      && o.session.trackList == ListFor(s, intent.value)
      && o.session.index == 0
      && Restarted(s, o.session, setupFails)
      && o.session == PlayCurrentTrack(s.(trackList := ListFor(s, intent.value), index := 0), setupFails)
    ensures ActionOf(intent) == Some(ACTION_PLAY) && !NothingToPlay(s, intent.value) &&
            StartIndex(intent.value) == NO_INDEX && !Resumable(s) && |ListFor(s, intent.value)| == 0 ==>
      o == Outcome(s.(trackList := [], stopped := true), NotSticky)
    ensures Invariant(s) ==> Invariant(o.session)
  {
    if ActionOf(intent) == Some(ACTION_PLAY) then
      var request := intent.value;
      if NothingToPlay(s, request) then Outcome(s.(stopped := true), NotSticky)
      else
        var t := if request.tracks.Some? && s.trackList != request.tracks.value
                 then s.(trackList := request.tracks.value) else s;
        var start := StartIndex(request);
        if start != NO_INDEX then
          if 0 <= start < |t.trackList| then Outcome(PlayCurrentTrack(t.(index := start), setupFails), Sticky)
          else Outcome(t.(stopped := true), NotSticky)
        else if Resumable(t) then
          Outcome(UpdateNotification(t.(player := Some(t.player.value.(playing := true)))), Sticky)
        else if |t.trackList| > 0 then Outcome(PlayCurrentTrack(t.(index := 0), setupFails), Sticky)
        else Outcome(t.(stopped := true), NotSticky)
    else
      var action := ActionOf(intent);
      if action == Some(ACTION_PAUSE) then Outcome(PausePlayback(s), Sticky)
      else if action == Some(ACTION_NEXT) then Outcome(NextTrack(s, setupFails), Sticky)
      else if action == Some(ACTION_PREV) then Outcome(PrevTrack(s, setupFails), Sticky)
      else Outcome(s, Sticky)
  }

  /**
   * The prepared listener: the player starts and the notification shows it
   * playing. Listeners fire only on the bound instance, the others having
   * been released.
   */
  function OnPrepared(s: Session): (r: Session)
    requires s.player.Some?
    ensures r.player == Some(Player(s.player.value.id, true))
    ensures r.(player := s.player, shown := s.shown) == s
    ensures InRange(s) ==> r.shown.Some? && r.shown.value.ongoing && |r.shown.value.buttons| == 3 && r.shown.value.buttons[1].command == ACTION_PAUSE
    ensures r.shown == (if InRange(s) then Project(r.trackList, r.index, r.player) else s.shown)
    ensures Invariant(s) ==> Invariant(r)
  {
    UpdateNotification(s.(player := Some(s.player.value.(playing := true))))
  }

  /**
   * The completion listener: the finished player no longer plays and the
   * service moves on exactly as for the NEXT command.
   */
  function OnCompletion(s: Session, setupFails: bool): (r: Session)
    requires s.player.Some?
    ensures |s.trackList| == 0 ==> r == s.(player := Some(Player(s.player.value.id, false)))
    ensures |s.trackList| > 0 && s.index >= NO_INDEX ==> r == NextTrack(s, setupFails)
    ensures Invariant(s) ==> Invariant(r)
  {
    NextTrack(s.(player := Some(s.player.value.(playing := false))), setupFails)
  }

  /**
   * The error listener: the player is reset (kept, not playing) and the
   * service requests its stop; it neither retries nor skips to the next track.
   */
  function OnError(s: Session): (r: Session)
    requires s.player.Some?
    ensures r.stopped && r.player == Some(Player(s.player.value.id, false))
    ensures r.(player := s.player, stopped := s.stopped) == s
    ensures Invariant(s) ==> Invariant(r)
  {
    s.(player := Some(s.player.value.(playing := false)), stopped := true)
  }

  /** onDestroy: exactly the release step that playCurrentTrack performs before creating a player. */
  function OnDestroy(s: Session): (r: Session)
    ensures r == Release(s)
  {
    Release(s)
  }

  // ---------------------------------------------------------------------
  // Properties relating several steps

  /** For a bound index, previous after next (and next after previous) restores it. */
  lemma PrevUndoesNext(s: Session, f1: bool, f2: bool)
    requires InRange(s)
    ensures PrevTrack(NextTrack(s, f1), f2).index == s.index
    ensures NextTrack(PrevTrack(s, f1), f2).index == s.index
  {
    NextPrevInverse(s.index, |s.trackList|);
  }

  /** `|outcomes|` successive NEXT commands, the i-th with setup outcome `outcomes[i]`. */
  function NextTimes(s: Session, outcomes: seq<bool>): Session
    decreases |outcomes|
  {
    if outcomes == [] then s
    else NextTrack(NextTimes(s, outcomes[..|outcomes| - 1]), outcomes[|outcomes| - 1])
  }

  lemma {:induction false} NextTimesIndex(s: Session, outcomes: seq<bool>)
    requires |s.trackList| > 0
    ensures NextTimes(s, outcomes).trackList == s.trackList
    ensures NextTimes(s, outcomes).index == Advance(s.index, |s.trackList|, |outcomes|)
    decreases |outcomes|
  {
    if outcomes != [] {
      NextTimesIndex(s, outcomes[..|outcomes| - 1]);
    }
  }

  /** As many NEXT commands as there are tracks bring the queue back to the same track. */
  lemma QueueLoops(s: Session, outcomes: seq<bool>)
    requires InRange(s) && |outcomes| == |s.trackList|
    ensures NextTimes(s, outcomes).index == s.index
  {
    NextTimesIndex(s, outcomes);
    FullCycle(s.index, |s.trackList|);
  }

  /** Pausing twice is pausing once. */
  lemma PauseIdempotent(s: Session)
    ensures PausePlayback(PausePlayback(s)) == PausePlayback(s)
  {
  }

  /**
   * The notification's toggle button flips between playing and paused on
   * the same player and the same track: PAUSE pauses, and PLAY (sent
   * without extras) resumes in place.
   */
  lemma ToggleFlipsPlaying(s: Session, setupFails: bool)
    requires InRange(s) && s.player.Some?
    ensures var toggle := Project(s.trackList, s.index, s.player).value.buttons[1];
      var o := OnStartCommand(s, Some(ButtonIntent(toggle)), setupFails);
      && o.mode == Sticky
      && o.session.player == Some(Player(s.player.value.id, !s.player.value.playing))
      && o.session.index == s.index && o.session.trackList == s.trackList
      && o.session.live == s.live && o.session.stopped == s.stopped
      && o.session.shown == Project(s.trackList, s.index, o.session.player)
  {
    var toggle := Project(s.trackList, s.index, s.player).value.buttons[1];
    if !s.player.value.playing {
      assert ActionOf(Some(ButtonIntent(toggle))) == Some(ACTION_PLAY);
      assert StartIndex(ButtonIntent(toggle)) == NO_INDEX;
    }
  }

  /** A request carrying a command name the service does not declare, such as a stop request, changes nothing. */
  lemma UndeclaredActionIgnored(s: Session, intent: Intent, setupFails: bool)
    requires intent.action == Some("ACTION_STOP") || intent.action == Some(ACTION_SET_TRACK)
    ensures OnStartCommand(s, Some(intent), setupFails) == Outcome(s, Sticky)
  {
  }

  // ---------------------------------------------------------------------
  // Runs of commands and callbacks

  /** Everything that can happen to the service, in the order it is handled. */
  datatype Event =
    | Command(intent: Option<Intent>, setupFails: bool)
    | Prepared
    | Completed(setupFails: bool)
    | PlayerError
    | Destroyed

  /**
   * One event. A player callback with no player bound cannot occur and
   * leaves the state as it is.
   */
  function Step(s: Session, e: Event): (r: Session)
    ensures Invariant(s) ==> Invariant(r)
  {
    match e
    case Command(intent, setupFails) => OnStartCommand(s, intent, setupFails).session
    case Prepared => if s.player.Some? then OnPrepared(s) else s
    case Completed(setupFails) => if s.player.Some? then OnCompletion(s, setupFails) else s
    case PlayerError => if s.player.Some? then OnError(s) else s
    case Destroyed => OnDestroy(s)
  }

  function Run(s: Session, events: seq<Event>): Session
    decreases |events|
  {
    if events == [] then s else Run(Step(s, events[0]), events[1..])
  }

  /** A fresh service is consistent. */
  lemma InitialConsistent()
    ensures Invariant(Initial)
  {
  }

  /**
   * On every run from a consistent state, a fresh service among them
   * (InitialConsistent), at most one player instance is unreleased at any time.
   */
  lemma {:induction false} AtMostOnePlayer(s: Session, events: seq<Event>)
    requires Invariant(s)
    ensures Invariant(Run(s, events))
    ensures |Run(s, events).live| <= 1
    decreases |events|
  {
    if events != [] {
      AtMostOnePlayer(Step(s, events[0]), events[1..]);
    }
    var r := Run(s, events);
    assert r.live == Held(r.player);
  }
}

=== FILE: queue_index.dfy ===
/**
 * Index arithmetic of the next/previous commands: moving through the queue
 * wraps around at both ends, so the playlist loops.
 */
module QueueIndex {

  /**
   * Kotlin's `%` on Int: the remainder of the division truncated toward
   * zero, so it takes the sign of the dividend (Dafny's `%` never is negative).
   */
  function Rem(a: int, n: int): (r: int)
    requires n > 0
    ensures -n < r < n
    ensures a >= 0 ==> r >= 0
    ensures a <= 0 ==> r <= 0
    ensures (a - r) % n == 0
  {
    RemDivides(a, n);
    if a >= 0 then a % n else -((-a) % n)
  }

  lemma RemDivides(a: int, n: int)
    requires n > 0
    ensures a >= 0 ==> (a - a % n) % n == 0
    ensures a < 0 ==> (a + (-a) % n) % n == 0
  {
    var m := if a >= 0 then a else -a;
    var q := m / n;
    assert m - m % n == n * q;
    if a >= 0 {
      ModUnique(n * q, n, q, 0);
    } else {
      assert a + m % n == n * (-q);
      ModUnique(n * (-q), n, -q, 0);
    }
  }

  /** A positive multiple of a positive number is at least that number. */
  lemma {:induction false} MulAtLeast(n: int, d: int)
    requires n > 0 && d >= 1
    ensures n * d >= n
  {
    if d > 1 {
      MulAtLeast(n, d - 1);
      assert n * d == n * (d - 1) + n;
    }
  }

  /** The quotient and remainder of Euclidean division are unique. */
  lemma ModUnique(a: int, n: int, q: int, r: int)
    requires n > 0 && 0 <= r < n && a == n * q + r
    ensures a % n == r && a / n == q
  {
    var q', r' := a / n, a % n;
    assert a == n * q' + r';
    assert n * (q - q') == r' - r;
    if q > q' {
      MulAtLeast(n, q - q');
    } else if q < q' {
      MulAtLeast(n, q' - q);
    }
  }

  /** The new index of `nextTrack` on a list of `n` tracks. */
  function NextIndex(i: int, n: nat): (j: int)
    requires n > 0
    ensures i >= -1 ==> 0 <= j < n
    ensures i >= -1 ==> j == (i + 1) % n
    ensures -1 <= i < n - 1 ==> j == i + 1
    ensures i == n - 1 ==> j == 0
  {
    Rem(i + 1, n)
  }

  /** The new index of `prevTrack` on a list of `n` tracks. */
  function PrevIndex(i: int, n: nat): (j: int)
    requires n > 0
    ensures i <= n ==> 0 <= j < n
    ensures i > n ==> j >= n
    ensures i <= 0 ==> j == n - 1
    ensures 0 < i ==> j == i - 1
  {
    if i > 0 then i - 1 else n - 1
  }

  /** On a bound index, previous undoes next and next undoes previous. */
  lemma NextPrevInverse(i: int, n: nat)
    requires 0 <= i < n
    ensures PrevIndex(NextIndex(i, n), n) == i
    ensures NextIndex(PrevIndex(i, n), n) == i
  {
  }

  /** `k` successive next steps. */
  function Advance(i: int, n: nat, k: nat): int
    requires n > 0
    decreases k
  {
    if k == 0 then i else NextIndex(Advance(i, n, k - 1), n)
  }

  /** `k` successive previous steps. */
  function Retreat(i: int, n: nat, k: nat): int
    requires n > 0
    decreases k
  {
    if k == 0 then i else PrevIndex(Retreat(i, n, k - 1), n)
  }

  lemma ModSucc(a: int, n: nat)
    requires n > 0
    ensures (a + 1) % n == if a % n == n - 1 then 0 else a % n + 1
  {
    var q, r := a / n, a % n;
    if r == n - 1 {
      ModUnique(a + 1, n, q + 1, 0);
    } else {
      ModUnique(a + 1, n, q, r + 1);
    }
  }

  lemma ModPred(a: int, n: nat)
    requires n > 0
    ensures (a - 1) % n == if a % n == 0 then n - 1 else a % n - 1
  {
    var q, r := a / n, a % n;
    if r == 0 {
      ModUnique(a - 1, n, q - 1, n - 1);
    } else {
      ModUnique(a - 1, n, q, r - 1);
    }
  }

  /** From a bound index, `k` next steps move `k` places forward, modulo `n`. */
  lemma {:induction false} AdvanceIsShift(i: int, n: nat, k: nat)
    requires 0 <= i < n
    ensures Advance(i, n, k) == (i + k) % n
  {
    if k == 0 {
      ModUnique(i, n, 0, i);
    } else {
      AdvanceIsShift(i, n, k - 1);
      ModSucc(i + k - 1, n);
    }
  }

  /** From a bound index, `k` previous steps move `k` places back, modulo `n`. */
  lemma {:induction false} RetreatIsShift(i: int, n: nat, k: nat)
    requires 0 <= i < n
    ensures Retreat(i, n, k) == (i - k) % n
  {
    if k == 0 {
      ModUnique(i, n, 0, i);
    } else {
      RetreatIsShift(i, n, k - 1);
      ModPred(i - k + 1, n);
    }
  }

  /** The wrap-around law: `n` next steps, or `n` previous steps, return to the start. */
  lemma {:induction false} FullCycle(i: int, n: nat)
    requires 0 <= i < n
    ensures Advance(i, n, n) == i
    ensures Retreat(i, n, n) == i
  {
    AdvanceIsShift(i, n, n);
    ModUnique(i + n, n, 1, i);
    RetreatIsShift(i, n, n);
    ModUnique(i - n, n, -1, i);
  }
}

=== FILE: service.dfy ===
/**
 * MusicPlayerService: the background service whose fields the commands and
 * the player's listeners update step by step. Each method is proved to take
 * the service from a state to the state the matching Playback function
 * gives, so every property proved there holds of the service.
 */
module Service {
  import opened Wrappers
  import opened Media
  import Notification
  import QueueIndex
  import Playback

  class MusicPlayerService {
    var trackList: seq<Track>
    /** NO_INDEX when no track is bound. */
    var currentTrackIndex: int
    var mediaPlayer: Option<Player>
    /** stopSelf() has been requested. */
    var stopped: bool
    /** The notification last posted with startForeground. */
    var notification: Option<Notification.Content>
    /** Ids of the player instances constructed and not yet released. */
    var live: set<nat>
    /** The id the next constructed player instance gets. */
    var nextPlayerId: nat

    /** The service's state as a value. */
    function Snapshot(): Playback.Session
      reads this
    {
      Playback.Session(trackList, currentTrackIndex, mediaPlayer, stopped, notification, live, nextPlayerId)
    }

    ghost predicate Valid()
      reads this
    {
      Playback.Invariant(Snapshot())
    }

    constructor ()
      ensures Snapshot() == Playback.Initial
      ensures Valid()
    {
      trackList := [];
      currentTrackIndex := NO_INDEX;
      mediaPlayer := None;
      stopped := false;
      notification := None;
      live := {};
      nextPlayerId := 0;
    }

    method OnStartCommand(intent: Option<Intent>, setupFails: bool) returns (mode: StartMode)
      modifies this
      ensures Playback.Outcome(Snapshot(), mode) == Playback.OnStartCommand(old(Snapshot()), intent, setupFails)
      ensures old(Valid()) ==> Valid()
    {
      if ActionOf(intent) == Some(ACTION_PLAY) {
        var received := intent.value.tracks;
        if received.Some? {
          // only update the list if a different one is provided
          if trackList != received.value {
            trackList := received.value;
          }
        } else if |trackList| == 0 {
          stopped := true;
          return NotSticky;
        }
        var startIndex := StartIndex(intent.value);
        if startIndex != NO_INDEX {
          if 0 <= startIndex < |trackList| {
            currentTrackIndex := startIndex;
            PlayCurrentTrack(setupFails);
          } else {
            stopped := true;
            return NotSticky;
          }
        } else if mediaPlayer.Some? && !mediaPlayer.value.playing && currentTrackIndex != NO_INDEX {
          // resume the bound track in place
          mediaPlayer := Some(mediaPlayer.value.(playing := true));
          UpdateNotification();
        } else if |trackList| > 0 {
          currentTrackIndex := 0;
          PlayCurrentTrack(setupFails);
        } else {
          stopped := true;
          return NotSticky;
        }
      } else {
        var action := ActionOf(intent);
        if action == Some(ACTION_PAUSE) {
          PausePlayback();
        } else if action == Some(ACTION_NEXT) {
          NextTrack(setupFails);
        } else if action == Some(ACTION_PREV) {
          PrevTrack(setupFails);
        }
      }
      return Sticky;
    }

    /** Releases the bound player, if any. */
    method ReleasePlayer()
      modifies this
      ensures Snapshot() == Playback.Release(old(Snapshot()))
      ensures old(Valid()) ==> Valid()
    {
      if mediaPlayer.Some? {
        live := live - {mediaPlayer.value.id};
      }
      mediaPlayer := None;
    }

    /**
     * `setupFails` says whether setting the data source or preparing the
     * new player throws.
     */
    method PlayCurrentTrack(setupFails: bool)
      modifies this
      ensures Snapshot() == Playback.PlayCurrentTrack(old(Snapshot()), setupFails)
      ensures old(Valid()) ==> Valid()
    {
      if currentTrackIndex < 0 || currentTrackIndex >= |trackList| {
        stopped := true;
        return;
      }
      ReleasePlayer();
      var created := Player(nextPlayerId, false);
      live := live + {created.id};
      nextPlayerId := nextPlayerId + 1;
      if setupFails {
        // the instance that failed its setup is released as well
        live := live - {created.id};
        stopped := true;
        return;
      }
      mediaPlayer := Some(created);
      UpdateNotification();
    }

    method PausePlayback()
      modifies this
      ensures Snapshot() == Playback.PausePlayback(old(Snapshot()))
      ensures old(Valid()) ==> Valid()
    {
      if IsPlaying(mediaPlayer) {
        mediaPlayer := Some(mediaPlayer.value.(playing := false));
        UpdateNotification();
      }
    }

    method NextTrack(setupFails: bool)
      modifies this
      ensures Snapshot() == Playback.NextTrack(old(Snapshot()), setupFails)
      ensures old(Valid()) ==> Valid()
    {
      if |trackList| == 0 {
        return;
      }
      currentTrackIndex := QueueIndex.NextIndex(currentTrackIndex, |trackList|);
      PlayCurrentTrack(setupFails);
    }

    method PrevTrack(setupFails: bool)
      modifies this
      ensures Snapshot() == Playback.PrevTrack(old(Snapshot()), setupFails)
      ensures old(Valid()) ==> Valid()
    {
      if |trackList| == 0 {
        return;
      }
      currentTrackIndex := QueueIndex.PrevIndex(currentTrackIndex, |trackList|);
      PlayCurrentTrack(setupFails);
    }

    /** Posts the notification for the bound track; changes nothing else. */
    method UpdateNotification()
      modifies this
      ensures Snapshot() == Playback.UpdateNotification(old(Snapshot()))
      ensures old(Valid()) ==> Valid()
      ensures notification == old(notification) || notification == Notification.Project(trackList, currentTrackIndex, mediaPlayer)
    {
      var content := Notification.Project(trackList, currentTrackIndex, mediaPlayer);
      if content.Some? {
        notification := content;
      }
    }

    /** The prepared listener of the bound player. */
    method OnPrepared()
      requires mediaPlayer.Some?
      modifies this
      ensures Snapshot() == Playback.OnPrepared(old(Snapshot()))
      ensures old(Valid()) ==> Valid()
    {
      mediaPlayer := Some(mediaPlayer.value.(playing := true));
      UpdateNotification();
    }

    /** The completion listener of the bound player. */
    method OnCompletion(setupFails: bool)
      requires mediaPlayer.Some?
      modifies this
      ensures Snapshot() == Playback.OnCompletion(old(Snapshot()), setupFails)
      ensures old(Valid()) ==> Valid()
    {
      mediaPlayer := Some(mediaPlayer.value.(playing := false));
      NextTrack(setupFails);
    }

    /** The error listener of the bound player. */
    method OnError()
      requires mediaPlayer.Some?
      modifies this
      ensures Snapshot() == Playback.OnError(old(Snapshot()))
      ensures old(Valid()) ==> Valid()
    {
      mediaPlayer := Some(mediaPlayer.value.(playing := false));
      stopped := true;
    }

    method OnDestroy()
      modifies this
      ensures Snapshot() == Playback.OnDestroy(old(Snapshot()))
      ensures old(Valid()) ==> Valid()
    {
      ReleasePlayer();
    }
  }

  /**
   * A session as a client sees it: select the first of three tracks, the
   * player becomes ready, pause from the notification, skip forward, and
   * back again. Everything asserted follows from the methods' contracts.
   */
  method QueueScenario(a: Track, b: Track, c: Track)
  {
    var service := new MusicPlayerService();
    var mode := service.OnStartCommand(Some(Intent(Some(ACTION_PLAY), Some([a, b, c]), Some(0))), false);
    assert mode == Sticky && service.currentTrackIndex == 0;
    assert service.mediaPlayer == Some(Player(0, false)) && service.live == {0};
    service.OnPrepared();
    assert service.notification.Some? && service.notification.value.ongoing;
    mode := service.OnStartCommand(Some(Intent(Some(ACTION_PAUSE), None, None)), false);
    assert service.mediaPlayer == Some(Player(0, false));
    mode := service.OnStartCommand(Some(Intent(Some(ACTION_NEXT), None, None)), false);
    assert service.currentTrackIndex == 1 && service.mediaPlayer == Some(Player(1, false)) && service.live == {1};
    mode := service.OnStartCommand(Some(Intent(Some(ACTION_PREV), None, None)), false);
    assert service.currentTrackIndex == 0 && service.live == {2} && !service.stopped;
  }
}

=== FILE: wrappers.dfy ===
/** The optional value used for Kotlin's nullable types (`T?`). */
module Wrappers {

  datatype Option<+T> = None | Some(value: T)
}
